=== FILE: README.md ===
# UsersApi in Dafny

A model of the users service: an ASP.NET Core controller with five actions
(list, get, create, update, delete) over a single `User` table, and the
`User` entity with its validation attributes and BCrypt password helpers.

- `dotnet_text.dfy`, module `DotNetText`: the .NET pieces the entity and the
  controller rely on. These are `char.IsWhiteSpace`, `string.IsNullOrWhiteSpace`,
  `IndexOf` and `LastIndexOf`, and the data-annotation attributes `[Required]`,
  `[StringLength]` and `[EmailAddress]`.
- `user.dfy`, module `Accounts`: the `User` entity as a class whose properties
  are updated in place, its value `UserData`, the attribute checks as
  `IsValid`/`Validate`, and `SetPassword`/`VerifyPassword`. BCrypt is a `Hasher`:
  two abstract total functions, `hashPassword(plain, salt)` and
  `verify(plain, hash)`. The salt is a parameter, so two hashes of one password
  may differ. The only property taken from BCrypt is `Sound`: a password
  verifies against every hash made from it.
- `users_controller.dfy`, module `Api`: the controller as a class over
  `table: map<Guid, User>`, which stands for the data context's `User` set.
  Every action returns a `Status`: 200, 201, 204, 400 (an id mismatch, or
  `ValidationFailed` from model validation), 404, or 500 when an exception
  escapes. Two ghost maps go with the table:
  - `rows` holds the value of every stored entity;
  - `secrets` records, for each stored user, the plaintext last submitted
    and the salt BCrypt drew when it hashed it.

  The table invariant `Valid()` has four parts:
  - `rows` holds the current value of every stored entity;
  - every entity is stored under its own `Id`, and none under `Guid.Empty`;
  - `Sound` holds of the hasher;
  - every stored password is exactly `hashPassword` of the recorded plaintext
    with the recorded salt. By `Sound`, that plaintext verifies against it.

  Every action states its status and the new `rows` (and `secrets`) in terms
  of the old ones, so "nothing else changes" is part of each contract.

Things the model makes explicit:

- Model validation (`[ApiController]`, UsersController.cs:8) runs in the
  framework before an action, and answers 400 when `Validate` reports any
  violation. `Post` and `Put` are the two write endpoints with that step in
  front. The actions themselves are modelled for every body, validated or not.
- `Validate` rejects a blank password (`[Required]` treats white space as
  missing). So behind validation, the keep-the-old-hash branch of
  `UpdateUser` (UsersController.cs:71) is never taken. A PUT with a blank
  password gets 400, not 204 (`ValidPasswordIsNotBlank`). The branch is
  modelled as written.
- `CreateUser` keeps a client-supplied `Id`. The data context generates a key
  (the `generated` parameter, assumed fresh) only when the body's `Id` is
  `Guid.Empty`. A body whose `Id` is already stored makes `SaveChangesAsync`
  throw, which the action does not catch. That is modelled as
  `InternalServerError` with the table unchanged. The body's password has
  already been re-hashed at that point.
- The actions have no `try`/`catch`: an exception from the store escapes
  as a 500. `UpdateUser` does not catch a concurrency conflict, so a row
  deleted between `FindAsync` and `SaveChangesAsync` is not turned into a 404.

## Model

| member | source | states |
|---|---|---|
| `DotNetText.IsNullOrWhiteSpace` | UsersApi/Controllers/UsersController.cs:71 | a password counts as blank exactly when every character of it is white space (the empty string included) |
| `DotNetText.EmailAddress` | UsersApi/Models/User.cs:16 | the e-mail attribute accepts a login exactly when it contains exactly one '@' and that '@' is neither its first nor its last character |
| `DotNetText.SingleOccurrence` | UsersApi/Models/User.cs:16 | the first and last positions of a character coincide exactly when it occurs once, which is what the e-mail check relies on |
| `Accounts.IsValid` | UsersApi/Models/User.cs:11-26 | a valid user has a non-blank Nome of 3-200 characters, a Login of 3-100 characters with an '@' strictly inside it, a non-blank Password of 6-200 characters and a non-blank Funcao of 3-20 characters |
| `Accounts.AllAttributesHold` | UsersApi/Models/User.cs:11-26 | the nine attributes all hold exactly when the user is valid |
| `Accounts.Validate` | UsersApi/Models/User.cs:11-26 | validation reports a violation for each attribute that fails and none otherwise: Nome required and 3-200 characters, Login required, an e-mail and at most 100 characters, Password required and 6-200 characters, Funcao required and 3-20 characters; the body passes exactly when no attribute fails |
| `Accounts.LoginWithoutSingleAtIsInvalid` | UsersApi/Models/User.cs:15-18 | a login with no '@' or with several is rejected, with the e-mail attribute among the violations |
| `Accounts.ValidPasswordIsNotBlank` | UsersApi/Models/User.cs:20-22 | a password that passes validation is at least 6 characters and not blank |
| `Accounts.User.SetPassword` | UsersApi/Models/User.cs:28-31 | the stored password becomes a hash of the given plaintext, no other property changes, and the plaintext then verifies |
| `Accounts.User.VerifyPassword` | UsersApi/Models/User.cs:33-36 | reads the entity without changing it; a plaintext that the stored hash was made from (with any salt) verifies |
| `Api.ToList` | UsersApi/Controllers/UsersController.cs:23 | lists a table whose entities sit under their own Ids: as many entities as keys, each the one stored under its Id, every stored entity among them, no entity twice |
| `Api.UsersController.constructor` | UsersApi/Controllers/UsersController.cs:14-17 | a controller over an empty table satisfies the table invariant |
| `Api.UsersController.GetUsers` | UsersApi/Controllers/UsersController.cs:21-24 | returns 200 and every stored entity exactly once: as many entities as keys, each one the entity stored under its Id, every stored entity among them, no two equal; the table is not modified |
| `Api.UsersController.GetUser` | UsersApi/Controllers/UsersController.cs:28-38 | an absent id gives 404 with the not-found message and no user; a present id gives 200 and the entity stored under it; the table is not modified |
| `Api.UsersController.CreateUser` | UsersApi/Controllers/UsersController.cs:42-50 | the body's password becomes the hash of the submitted one with the drawn salt, and the body gets the generated key if its Id is empty; a new key adds exactly that entry (201 with the key, every other row unchanged, the submitted password and salt recorded, the submitted password verifies against the stored hash); a key already stored gives 500 and leaves the table unchanged |
| `Api.UsersController.Add` | UsersApi/Controllers/UsersController.cs:46-47 | storing an entity under its own new, non-empty Id adds exactly that row and its plaintext and salt, keeps the invariant, and the plaintext verifies against the stored hash |
| `Api.UsersController.UpdateUser` | UsersApi/Controllers/UsersController.cs:54-80 | path id different from body Id gives 400 with nothing changed; absent id gives 404 with nothing changed; otherwise 204, the row keeps its Id and takes the body's Nome, Login and Funcao; with a blank password it keeps its hash and recorded plaintext; otherwise its password becomes the hash of the new one with the drawn salt, the new plaintext is recorded and verifies; no other row changes |
| `Api.UsersController.Assign` | UsersApi/Controllers/UsersController.cs:67-69 | overwriting Nome, Login and Funcao of the stored entity changes exactly those three fields of its row, keeps its Id, hash and recorded plaintext, and keeps the invariant |
| `Api.UsersController.AssignWithPassword` | UsersApi/Controllers/UsersController.cs:67-74 | overwriting Nome, Login and Funcao and re-hashing a non-blank password changes exactly those four fields of the row, records the new plaintext and salt, keeps the invariant, and the new plaintext verifies |
| `Api.UsersController.Post` | UsersApi/Controllers/UsersController.cs:8 | a body that fails validation gets 400 with the messages of its violations, in order, and neither the table nor the body changes; a valid body has its password hashed and gets the generated key if its Id is empty; it then gets 500 exactly when its Id is already stored, with the table, rows and recorded plaintexts unchanged, and otherwise 201 with exactly its row and its plaintext and salt added and the submitted password verifying |
| `Api.UsersController.Put` | UsersApi/Controllers/UsersController.cs:8 | a body that fails validation gets 400 with the messages of its violations, in order, and no row or recorded plaintext changes; a valid body gets 400 or 404 with no row or recorded plaintext changed, or 204 with the row replaced by the body's Nome, Login, Funcao and a fresh hash of its password, which is recorded with its salt and then verifies |
| `Api.UsersController.DeleteUser` | UsersApi/Controllers/UsersController.cs:84-96 | absent id gives 404 with the table unchanged; otherwise 204 and exactly that key is removed from the table, the rows and the recorded plaintexts and salts |
| `Api.DeleteThenAccess` | UsersApi/Controllers/UsersController.cs:86-95 | after a user is deleted, getting, updating or deleting it again each answer 404 |
| `Api.CreateThenGet` | UsersApi/Controllers/UsersController.cs:44-49 | a user posted without an Id is then the entity stored under the generated key, fetched with 200, with the submitted Nome, Login and Funcao and a stored hash the submitted password verifies against |

## Left out

- Program.cs (host, dependency injection, the SQLite connection, CORS,
  Swagger, HTTPS redirection, `EnsureCreated`): framework bootstrap with no
  logic of its own. The controller constructor starts from an empty table.
- UsersApiDBContext.cs: the `DbSet<User>` is the `table` map. Change tracking
  is the in-place update of the tracked entity, and `SaveChangesAsync`
  persists it at once.
- `async`/`await`, concurrency between requests, optimistic-concurrency
  conflicts, and store failures. The only store failure modelled is the
  duplicate key on create.
- The framework's model-validation filter is modelled only as the first step
  of `Post` and `Put`. The problem-details body of its 400 is reduced to the
  list of error-message texts of the failed attributes (`Accounts.Messages`),
  without the property names it groups them under.
- BCrypt internals (salt generation, cost factor, hash format). Because the
  hash is abstract, the model cannot prove two things: that the stored hash
  differs from the plaintext, and that an old password stops verifying after
  a change. Both need properties of BCrypt beyond `Sound`.
- `EmailAddress`: framework code that is not part of this model. The
  predicate is the rule the attribute applies (one '@', not at either end).
- C# `null` strings are not modelled. A missing field is rejected by
  `[Required]` before any action runs. `IsNullOrWhiteSpace` is modelled on
  non-null strings.
- String lengths count characters, where .NET counts UTF-16 code units. The
  two differ only for characters outside the Basic Multilingual Plane.
- Response bodies beyond the status: the JSON serialisation and the
  `CreatedAtAction` location header.
- Body entities are assumed distinct from every stored entity, as a freshly
  deserialised request body is. Aliasing between a body and a tracked entity
  is not modelled.

=== FILE: dotnet_text.dfy ===
/** The parts of the .NET base library and of System.ComponentModel.DataAnnotations
    that the User model and the controller rely on. A C# `string` is a `seq<char>`
    here; null strings are not modelled. */
module DotNetText {

  /** char.IsWhiteSpace: the Unicode separators (space, line and paragraph)
      together with the control characters U+0009..U+000D and U+0085. */
  predicate IsWhiteSpace(c: char) {
    || '\t' <= c <= '\r'
    || c == ' '
    || c == '\U{85}'
    || c == '\U{A0}'
    || c == '\U{1680}'
    || '\U{2000}' <= c <= '\U{200A}'
    || c == '\U{2028}'
    || c == '\U{2029}'
    || c == '\U{202F}'
    || c == '\U{205F}'
    || c == '\U{3000}'
  }

  /** string.IsNullOrWhiteSpace: true when no character of `s` is anything but
      white space (so also for the empty string). */
  function IsNullOrWhiteSpace(s: string): (blank: bool)
    ensures blank <==> forall i :: 0 <= i < |s| ==> IsWhiteSpace(s[i])
  {
    if s == [] then true else IsWhiteSpace(s[0]) && IsNullOrWhiteSpace(s[1..])
  }

  /** string.IndexOf(char): the first position of `c`, or -1. */
  function IndexOf(s: string, c: char): (i: int)
    ensures -1 <= i < |s|
    ensures i == -1 <==> c !in s
    ensures 0 <= i ==> s[i] == c && c !in s[..i]
  {
    if s == [] then -1
    else if s[0] == c then 0
    else
      var j := IndexOf(s[1..], c);
      if j == -1 then -1 else j + 1
  }

  /** string.LastIndexOf(char): the last position of `c`, or -1. */
  function LastIndexOf(s: string, c: char): (i: int)
    ensures -1 <= i < |s|
    ensures i == -1 <==> c !in s
    ensures 0 <= i ==> s[i] == c && c !in s[i + 1..]
  {
    if s == [] then -1
    else if s[|s| - 1] == c then |s| - 1
    else LastIndexOf(s[..|s| - 1], c)
  }

  /** [Required] with AllowEmptyStrings left false: a string made only of
      white space is as missing as a null one. */
  predicate Required(s: string) {
    !IsNullOrWhiteSpace(s)
  }

  /** [StringLength(maximumLength, MinimumLength = minimumLength)]: both bounds inclusive. */
  predicate StringLength(s: string, maximumLength: nat, minimumLength: nat) {
    minimumLength <= |s| <= maximumLength
  }

  /** [EmailAddress]: the attribute accepts a string whose first '@' is neither
      its first nor its last character and is also its last '@'. Its contract
      says what that means: exactly one '@', and not at either end. */
  function EmailAddress(s: string): (ok: bool)
    ensures ok <==> |s| > 0 && s[0] != '@' && s[|s| - 1] != '@' && multiset(s)['@'] == 1
  {
    var index := IndexOf(s, '@');
    var last := LastIndexOf(s, '@');
    SingleOccurrence(s, '@', index, last);
    index > 0 && index != |s| - 1 && index == last
  }

  /** The first and the last position of `c` coincide exactly when `c` occurs once. */
  lemma {:induction false} SingleOccurrence(s: string, c: char, first: int, last: int)
    requires first == IndexOf(s, c) && last == LastIndexOf(s, c)
    ensures (0 <= first && first == last) <==> multiset(s)[c] == 1
  {
    if 0 <= first {
      assert s == s[..first] + [c] + s[first + 1..];
      assert multiset(s) == multiset(s[..first]) + multiset{c} + multiset(s[first + 1..]);
      assert multiset(s[..first])[c] == 0;
      if first == last {
        assert multiset(s[first + 1..])[c] == 0;
      } else {
        assert first < last;
        assert s[last] == s[first + 1..][last - first - 1];
        assert c in s[first + 1..];
      }
    } else {
      assert c !in s;
    }
  }
}

=== FILE: user.dfy ===
/** The User entity: its properties, the validation attributes on them, and the
    password helpers built on BCrypt. */
module Accounts {
  import opened DotNetText

  /** System.Guid: a 128-bit value, here as a number; zero is Guid.Empty. */
  newtype Guid = x: int | 0 <= x < 0x1_0000_0000_0000_0000_0000_0000_0000_0000
  const EmptyGuid: Guid := 0

  /** The random salt BCrypt draws afresh on every call of HashPassword; because
      it is a parameter, two hashes of one password need not be equal. */
  type Salt = nat

  /** BCrypt.Net.BCrypt, a library outside this model: HashPassword and Verify
      are left abstract, as two total functions. */
  datatype Hasher = Hasher(hashPassword: (string, Salt) -> string, verify: (string, string) -> bool)

  /** The one property the model takes from BCrypt: a password verifies against
      every hash made from it, whatever the salt. */
  ghost predicate Sound(h: Hasher) {
    forall p: string, s: Salt :: h.verify(p, h.hashPassword(p, s))
  }

  /** The value of a User at one moment: its five properties. */
  datatype UserData = UserData(id: Guid, nome: string, login: string, password: string, funcao: string)

  /** One failed validation attribute, by property and attribute. */
  datatype Violation =
    | NomeRequired | NomeLength
    | LoginRequired | LoginEmail | LoginLength
    | PasswordRequired | PasswordLength
    | FuncaoRequired | FuncaoLength

  /** The error message each validation attribute reports when it fails. */
  function Message(v: Violation): (text: string) {
    match v
    case NomeRequired => "O campo Nome é obrigatório"
    case NomeLength => "O campo Nome deve ter entre 3 e 200 caracteres"
    case LoginRequired => "O campo Login é obrigatório"
    case LoginEmail => "O campo Login deve ser um e-mail válido"
    case LoginLength => "O campo Login pode ter no máximo 100 caracteres"
    case PasswordRequired => "O campo Senha é obrigatório"
    case PasswordLength => "A senha deve ter entre 6 e 200 caracteres"
    case FuncaoRequired => "O campo Função é obrigatório"
    case FuncaoLength => "O campo Função deve ter entre 3 e 20 caracteres"
  }

  /** Every validation attribute on the User properties holds. A valid user has
      non-blank fields within their length bounds and a login with an '@' inside. */
  function IsValid(d: UserData): (ok: bool)
    ensures ok ==> 3 <= |d.nome| <= 200 && !IsNullOrWhiteSpace(d.nome)
    ensures ok ==> 3 <= |d.login| <= 100 && '@' in d.login[1..|d.login| - 1]
    ensures ok ==> 6 <= |d.password| <= 200 && !IsNullOrWhiteSpace(d.password)
    ensures ok ==> 3 <= |d.funcao| <= 20 && !IsNullOrWhiteSpace(d.funcao)
  {
    && Required(d.nome) && StringLength(d.nome, 200, 3)
    && Required(d.login) && EmailAddress(d.login) && StringLength(d.login, 100, 0)
    && Required(d.password) && StringLength(d.password, 200, 6)
    && Required(d.funcao) && StringLength(d.funcao, 20, 3)
  }

  /** The error messages of a list of failed attributes, in the same order: the
      texts a 400 from model validation reports. */
  function Messages(errors: seq<Violation>): (texts: seq<string>)
    ensures |texts| == |errors|
    ensures forall i :: 0 <= i < |errors| ==> texts[i] == Message(errors[i])
  {
    if errors == [] then [] else [Message(errors[0])] + Messages(errors[1..])
  }

  /** Whether the attribute behind `v` holds of `d`. */
  predicate Holds(d: UserData, v: Violation) {
    match v
    case NomeRequired => Required(d.nome)
    case NomeLength => StringLength(d.nome, 200, 3)
    case LoginRequired => Required(d.login)
    case LoginEmail => EmailAddress(d.login)
    case LoginLength => StringLength(d.login, 100, 0)
    case PasswordRequired => Required(d.password)
    case PasswordLength => StringLength(d.password, 200, 6)
    case FuncaoRequired => Required(d.funcao)
    case FuncaoLength => StringLength(d.funcao, 20, 3)
  }

  /** The attributes in the order the properties and their attributes are declared. */
  const Attributes: seq<Violation> := [
    NomeRequired, NomeLength,
    LoginRequired, LoginEmail, LoginLength,
    PasswordRequired, PasswordLength,
    FuncaoRequired, FuncaoLength]

  /** The attributes of `attrs` that `d` violates, in order. */
  function Failing(d: UserData, attrs: seq<Violation>): (failed: seq<Violation>)
    ensures forall v :: v in failed <==> v in attrs && !Holds(d, v)
  {
    if attrs == [] then []
    else (if Holds(d, attrs[0]) then [] else [attrs[0]]) + Failing(d, attrs[1..])
  }

  /** Every attribute holds exactly when the entity is valid. */
  lemma AllAttributesHold(d: UserData)
    ensures (forall v :: v in Attributes ==> Holds(d, v)) <==> IsValid(d)
  {
    assert Attributes[0] == NomeRequired && Attributes[1] == NomeLength;
    assert Attributes[2] == LoginRequired && Attributes[3] == LoginEmail && Attributes[4] == LoginLength;
    assert Attributes[5] == PasswordRequired && Attributes[6] == PasswordLength;
    assert Attributes[7] == FuncaoRequired && Attributes[8] == FuncaoLength;
    if forall v :: v in Attributes ==> Holds(d, v) {
      assert forall i :: 0 <= i < |Attributes| ==> Holds(d, Attributes[i]);
    }
  }

  /** Model validation of a User: the attributes it violates, in declaration
      order; it passes exactly when no attribute fails. */
  function Validate(d: UserData): (errors: seq<Violation>)
    ensures forall v :: v in errors <==> v in Attributes && !Holds(d, v)
    ensures errors == [] <==> IsValid(d)
  {
    var errors := Failing(d, Attributes);
    assert errors != [] ==> errors[0] in errors;
    AllAttributesHold(d);
    errors
  }

  /** A login with no '@' in it, or with two, never passes validation. */
  lemma LoginWithoutSingleAtIsInvalid(d: UserData)
    requires multiset(d.login)['@'] != 1
    ensures !IsValid(d) && LoginEmail in Validate(d)
  {
  }

  /** A body that passes validation never carries a blank password, so behind
      model validation the keep-the-old-hash branch of an update is not taken.
      A corollary of the contract of `IsValid`, named for that use. */
  lemma ValidPasswordIsNotBlank(d: UserData)
    requires IsValid(d)
    ensures !IsNullOrWhiteSpace(d.password) && |d.password| >= 6
  {
  }

  /** A User entity; the controller and the data context update its properties in place. */
  class User {
    var id: Guid
    var nome: string
    var login: string
    var password: string
    var funcao: string

    constructor (id: Guid, nome: string, login: string, password: string, funcao: string)
      ensures Data() == UserData(id, nome, login, password, funcao)
    {
      this.id := id;
      this.nome := nome;
      this.login := login;
      this.password := password;
      this.funcao := funcao;
    }

    /** The current value of this entity. */
    function Data(): (d: UserData)
      reads this
    {
      UserData(id, nome, login, password, funcao)
    }

    /** Replaces the stored password by a BCrypt hash of `plain` (the source names
        this parameter passwordHash, but it receives the plaintext). */
    method SetPassword(h: Hasher, plain: string, salt: Salt)
      modifies this
      ensures Data() == old(Data()).(password := h.hashPassword(plain, salt))
      ensures Sound(h) ==> VerifyPassword(h, plain)
    {
      password := h.hashPassword(plain, salt);
    }

    /** Checks `plain` against the stored hash. A pure query: it reads this entity
        and changes nothing. */
    function VerifyPassword(h: Hasher, plain: string): (ok: bool)
      reads this
      ensures Sound(h) && (exists salt: Salt :: password == h.hashPassword(plain, salt)) ==> ok
    {
      h.verify(plain, password)
    }
  }
}

=== FILE: users_controller.dfy ===
/** The users controller: five actions over the User table of the data context.
    The table is a map from key to tracked User entity; each action reports the
    HTTP outcome it produces. */
module Api {
  import opened DotNetText
  import opened Accounts

  const NotFoundMessage := "Usuário não encontrado."
  const MismatchMessage := "O ID fornecido não corresponde ao usuário."

  /** The result of an action: the status code and what its body carries. */
  datatype Status =
    | Ok                                // 200
    | Created(id: Guid)                 // 201, with a route to GetUser for `id`
    | NoContent                         // 204
    | BadRequest(message: string)       // 400
    | ValidationFailed(errors: seq<string>)     // 400 from model validation, with the messages
    | NotFound(message: string)         // 404
    | InternalServerError               // 500: an exception escaped the action

  /** The part of the table invariant about values alone: every row is stored
      under its own Id and none under the empty Id, and every row's password is
      the hash of its recorded plaintext with its recorded salt. */
  ghost predicate Consistent(h: Hasher, rows: map<Guid, UserData>, secrets: map<Guid, Secret>) {
    && secrets.Keys == rows.Keys
    && EmptyGuid !in rows
    && (forall k :: k in rows ==> rows[k].id == k)
    && (forall k :: k in rows ==> rows[k].password == h.hashPassword(secrets[k].plain, secrets[k].salt))
  }

  /** The plaintext a stored hash was made from, and the salt BCrypt drew for it. */
  datatype Secret = Secret(plain: string, salt: Salt)

  /** Storing a row under its own non-empty Id, with a hash of `plain`, keeps the rows consistent. */
  lemma StoreKeepsConsistent(h: Hasher, rows: map<Guid, UserData>, secrets: map<Guid, Secret>,
                             d: UserData, plain: string, salt: Salt)
    requires Consistent(h, rows, secrets)
    requires d.id != EmptyGuid && d.password == h.hashPassword(plain, salt)
    ensures Consistent(h, rows[d.id := d], secrets[d.id := Secret(plain, salt)])
  {
  }

  /** Replacing a row by one with the same Id and the same password keeps the rows consistent. */
  lemma ReplaceKeepsConsistent(h: Hasher, rows: map<Guid, UserData>, secrets: map<Guid, Secret>,
                               d: UserData)
    requires Consistent(h, rows, secrets)
    requires d.id in rows && d.password == rows[d.id].password
    ensures Consistent(h, rows[d.id := d], secrets)
  {
  }

  /** Removing a row keeps the rows consistent. */
  lemma RemoveKeepsConsistent(h: Hasher, rows: map<Guid, UserData>, secrets: map<Guid, Secret>,
                              id: Guid)
    requires Consistent(h, rows, secrets)
    ensures Consistent(h, rows - {id}, secrets - {id})
  {
  }

  /** ToListAsync on the User set: every entity of a table whose entities are
      stored under their own Ids, each once. */
  method ToList(table: map<Guid, User>) returns (users: seq<User>)
    requires forall k :: k in table ==> table[k].id == k
    ensures |users| == |table|
    ensures forall i :: 0 <= i < |users| ==> users[i].id in table && table[users[i].id] == users[i]
    ensures forall k :: k in table ==> table[k] in users
    ensures forall i, j :: 0 <= i < j < |users| ==> users[i] != users[j]
  {
    users := [];
    var rest := table.Keys;
    while rest != {}
      invariant rest <= table.Keys
      invariant |users| + |rest| == |table|
      invariant forall i :: 0 <= i < |users| ==> users[i].id in table.Keys - rest && table[users[i].id] == users[i]
      invariant forall k :: k in table.Keys - rest ==> table[k] in users
      invariant forall i, j :: 0 <= i < j < |users| ==> users[i].id != users[j].id
      decreases |rest|
    {
      var k :| k in rest;
      users := users + [table[k]];
      rest := rest - {k};
    }
  }

  class UsersController {
    /** The BCrypt library the controller hashes with. */
    const hasher: Hasher
    /** The User table: each key maps to the entity stored under it. */
    var table: map<Guid, User>
    /** The value of every stored entity, by key. */
    ghost var rows: map<Guid, UserData>
    /** For each stored user, the plaintext password its stored hash was made
        from and the salt BCrypt drew for it. */
    ghost var secrets: map<Guid, Secret>

    /** The table invariant: `rows` holds the value of every stored entity; every
        entity is stored under its own Id and none under the empty Id; and every
        stored password is the BCrypt hash of the plaintext last submitted for that
        user, so that plaintext verifies against it. */
    ghost predicate Valid()
      reads this, table.Values
    {
      && Sound(hasher)
      && rows.Keys == table.Keys
      && (forall k :: k in table ==> table[k].Data() == rows[k])
      && Consistent(hasher, rows, secrets)
    }

    /** A controller over an empty table (a freshly created database). */
    constructor (hasher: Hasher)
      requires Sound(hasher)
      ensures Valid() && this.hasher == hasher && table == map[]
    {
      this.hasher := hasher;
      table := map[];
      rows := map[];
      secrets := map[];
    }

    /** GET api/users: every stored entity, each exactly once. */
    method GetUsers() returns (status: Status, users: seq<User>)
      requires Valid()
      ensures status == Ok
      ensures |users| == |table|
      ensures forall i :: 0 <= i < |users| ==> users[i].id in table && table[users[i].id] == users[i]
      ensures forall k :: k in table ==> table[k] in users
      ensures forall i, j :: 0 <= i < j < |users| ==> users[i] != users[j]
    {
      assert forall k :: k in table ==> table[k].id == k by {
        forall k | k in table ensures table[k].id == k {
          assert table[k].Data() == rows[k];
        }
      }
      users := ToList(table);
      status := Ok;
    }

    /** GET api/users/{id}: the entity stored under `id`, or 404. */
    method GetUser(id: Guid) returns (status: Status, user: User?)
      requires Valid()
      ensures id in table ==> status == Ok && user == table[id] && user.Data() == rows[id]
      ensures id !in table ==> status == NotFound(NotFoundMessage) && user == null
    {
      if id !in table {
        return NotFound(NotFoundMessage), null;
      }
      user := table[id];
      status := Ok;
    }

    /** POST api/users: hashes the submitted password into the body entity, gives it
        a key if it has none, and stores it. `generated` is the key the data context
        generates for an entity whose Id is Guid.Empty; `salt` is BCrypt's salt. */
    method CreateUser(user: User, generated: Guid, salt: Salt) returns (status: Status)
      requires Valid()
      requires user !in table.Values
      requires generated != EmptyGuid && generated !in table
      modifies this, user
      ensures Valid()
      ensures user.Data() == old(user.Data()).(
                id := if old(user.id) == EmptyGuid then generated else old(user.id),
                password := hasher.hashPassword(old(user.password), salt))
      ensures old(user.id) in old(table) ==>
                status == InternalServerError && table == old(table) && rows == old(rows) && secrets == old(secrets)
      ensures old(user.id) !in old(table) ==>
                && status == Created(user.id)
                && table == old(table)[user.id := user]
                && rows == old(rows)[user.id := user.Data()]
                && secrets == old(secrets)[user.id := Secret(old(user.password), salt)]
      ensures status.Created? ==> user.VerifyPassword(hasher, old(user.password))
    {
      user.password := hasher.hashPassword(user.password, salt);
      if user.id == EmptyGuid {
        user.id := generated;
      }
      // The body is not stored, so changing it changes no stored entity.
      assert Valid() && rows == old(rows) by {
        forall k | k in table ensures table[k].Data() == rows[k] {
          assert table[k] != user;
        }
      }
      if user.id in table {
        // SaveChanges fails on the duplicate key and the exception escapes.
        return InternalServerError;
      }
      Add(user, old(user.password), salt);
      status := Created(user.id);
    }

    /** _context.User.Add followed by SaveChanges: stores an entity under its own,
        not yet stored, Id. Its password is a hash of `plain` made with `salt`. */
    method Add(user: User, ghost plain: string, ghost salt: Salt)
      requires Valid()
      requires user !in table.Values
      requires user.id != EmptyGuid && user.id !in table
      requires user.password == hasher.hashPassword(plain, salt)
      modifies this
      ensures Valid()
      ensures table == old(table)[user.id := user]
      ensures rows == old(rows)[user.id := user.Data()]
      ensures secrets == old(secrets)[user.id := Secret(plain, salt)]
      ensures user.VerifyPassword(hasher, plain)
    {
      StoreKeepsConsistent(hasher, rows, secrets, user.Data(), plain, salt);
      table := table[user.id := user];
      rows := rows[user.id := user.Data()];
      secrets := secrets[user.id := Secret(plain, salt)];
      forall k | k in table ensures table[k].Data() == rows[k] {
        if k != user.id {
          assert table[k] == old(table[k]);
        }
      }
    }

    /** PUT api/users/{id}: overwrites Nome, Login and Funcao of the stored entity
        with the body's, and its password with a fresh hash of the body's password
        unless that one is blank. */
    method UpdateUser(id: Guid, updatedUser: User, salt: Salt) returns (status: Status)
      requires Valid()
      requires updatedUser !in table.Values
      modifies this, table.Values
      ensures Valid()
      ensures table == old(table)
      ensures id != updatedUser.id ==>
                status == BadRequest(MismatchMessage) && rows == old(rows) && secrets == old(secrets)
      ensures id == updatedUser.id && id !in table ==>
                status == NotFound(NotFoundMessage) && rows == old(rows) && secrets == old(secrets)
      ensures id == updatedUser.id && id in table ==> status == NoContent
      ensures status == NoContent && IsNullOrWhiteSpace(updatedUser.password) ==>
                && rows == old(rows)[id := old(rows[id]).(
                     nome := updatedUser.nome, login := updatedUser.login, funcao := updatedUser.funcao)]
                && secrets == old(secrets)
      ensures status == NoContent && !IsNullOrWhiteSpace(updatedUser.password) ==>
                && rows == old(rows)[id := old(rows[id]).(
                     nome := updatedUser.nome, login := updatedUser.login, funcao := updatedUser.funcao,
                     password := hasher.hashPassword(updatedUser.password, salt))]
                && secrets == old(secrets)[id := Secret(updatedUser.password, salt)]
      ensures status == NoContent && !IsNullOrWhiteSpace(updatedUser.password) ==>
                table[id].VerifyPassword(hasher, updatedUser.password)
    {
      if id != updatedUser.id {
        return BadRequest(MismatchMessage);
      }
      if id !in table {
        return NotFound(NotFoundMessage);
      }
      assert table[id] in table.Values && table[id] != updatedUser;
      if IsNullOrWhiteSpace(updatedUser.password) {
        Assign(id, updatedUser.nome, updatedUser.login, updatedUser.funcao);
      } else {
        AssignWithPassword(id, updatedUser.nome, updatedUser.login, updatedUser.funcao, updatedUser.password, salt);
      }
      status := NoContent;
    }

    /** The in-place update of the Nome, Login and Funcao of the entity tracked under
        `id`, recorded by SaveChanges; its Id and password hash stay as they are. */
    method Assign(id: Guid, nome: string, login: string, funcao: string)
      requires Valid()
      requires id in table
      modifies this, table[id]
      ensures Valid()
      ensures table == old(table) && secrets == old(secrets)
      ensures rows == old(rows)[id := old(rows[id]).(nome := nome, login := login, funcao := funcao)]
    {
      var user := table[id];
      user.nome, user.login, user.funcao := nome, login, funcao;
      ReplaceKeepsConsistent(hasher, rows, secrets, user.Data());
      rows := rows[id := user.Data()];
      // Keys and Ids agree, so no other key reaches the entity just changed.
      forall k | k in table ensures table[k].Data() == rows[k] {
        if k != id {
          assert old(table[k].Data()).id == k;
          assert table[k] != user;
        }
      }
    }

    /** The same update together with the replacement of the password by a fresh
        hash of `plain`, recorded by SaveChanges; `plain` then verifies against it. */
    method AssignWithPassword(id: Guid, nome: string, login: string, funcao: string, plain: string, salt: Salt)
      requires Valid()
      requires id in table
      modifies this, table[id]
      ensures Valid()
      ensures table == old(table)
      ensures rows == old(rows)[id := old(rows[id]).(
                nome := nome, login := login, funcao := funcao, password := hasher.hashPassword(plain, salt))]
      ensures secrets == old(secrets)[id := Secret(plain, salt)]
      ensures table[id].VerifyPassword(hasher, plain)
    {
      var user := table[id];
      user.nome, user.login, user.funcao := nome, login, funcao;
      user.password := hasher.hashPassword(plain, salt);
      StoreKeepsConsistent(hasher, rows, secrets, user.Data(), plain, salt);
      rows := rows[id := user.Data()];
      secrets := secrets[id := Secret(plain, salt)];
      // Keys and Ids agree, so no other key reaches the entity just changed.
      forall k | k in table ensures table[k].Data() == rows[k] {
        if k != id {
          assert old(table[k].Data()).id == k;
          assert table[k] != user;
        }
      }
    }

    /** POST api/users as the framework dispatches it: model validation first
        ([ApiController] answers 400 for a body that violates an attribute), then
        the CreateUser action. */
    method Post(body: User, generated: Guid, salt: Salt) returns (status: Status)
      requires Valid()
      requires body !in table.Values
      requires generated != EmptyGuid && generated !in table
      modifies this, body
      ensures Valid()
      ensures !IsValid(old(body.Data())) ==>
                && status == ValidationFailed(Messages(Validate(old(body.Data()))))
                && table == old(table) && rows == old(rows) && secrets == old(secrets)
                && body.Data() == old(body.Data())
      ensures IsValid(old(body.Data())) ==>
                && body.Data() == old(body.Data()).(
                     id := if old(body.id) == EmptyGuid then generated else old(body.id),
                     password := hasher.hashPassword(old(body.password), salt))
                && (status == Created(body.id) || status == InternalServerError)
                && (status == InternalServerError <==> old(body.id) in old(table))
      ensures status == InternalServerError ==> table == old(table) && rows == old(rows) && secrets == old(secrets)
      ensures status.Created? ==>
                && body.id !in old(table)
                && rows == old(rows)[body.id := body.Data()]
                && secrets == old(secrets)[body.id := Secret(old(body.password), salt)]
                && body.VerifyPassword(hasher, old(body.password))
    {
      var errors := Validate(body.Data());
      if errors != [] {
        return ValidationFailed(Messages(errors));
      }
      status := CreateUser(body, generated, salt);
    }

    /** PUT api/users/{id} as the framework dispatches it: model validation first,
        then the UpdateUser action. A body that passes validation has a non-blank
        password, so a successful update always stores a fresh hash of it. */
    method Put(id: Guid, updatedUser: User, salt: Salt) returns (status: Status)
      requires Valid()
      requires updatedUser !in table.Values
      modifies this, table.Values
      ensures Valid()
      ensures table == old(table)
      ensures !IsValid(updatedUser.Data()) ==>
                status == ValidationFailed(Messages(Validate(updatedUser.Data())))
                && rows == old(rows) && secrets == old(secrets)
      ensures IsValid(updatedUser.Data()) && id != updatedUser.id ==>
                status == BadRequest(MismatchMessage) && rows == old(rows) && secrets == old(secrets)
      ensures IsValid(updatedUser.Data()) && id == updatedUser.id && id !in table ==>
                status == NotFound(NotFoundMessage) && rows == old(rows) && secrets == old(secrets)
      ensures IsValid(updatedUser.Data()) && id == updatedUser.id && id in table ==>
                && status == NoContent
                && rows == old(rows)[id := UserData(
                     id, updatedUser.nome, updatedUser.login,
                     hasher.hashPassword(updatedUser.password, salt), updatedUser.funcao)]
                && secrets == old(secrets)[id := Secret(updatedUser.password, salt)]
                && table[id].VerifyPassword(hasher, updatedUser.password)
    {
      var errors := Validate(updatedUser.Data());
      if errors != [] {
        return ValidationFailed(Messages(errors));
      }
      ValidPasswordIsNotBlank(updatedUser.Data());
      status := UpdateUser(id, updatedUser, salt);
    }

    /** DELETE api/users/{id}: removes the entity stored under `id`, or 404. */
    method DeleteUser(id: Guid) returns (status: Status)
      requires Valid()
      modifies this
      ensures Valid()
      ensures id !in old(table) ==> status == NotFound(NotFoundMessage) && table == old(table)
      ensures id in old(table) ==> status == NoContent && table == old(table) - {id}
      ensures rows == old(rows) - {id} && secrets == old(secrets) - {id}
    {
      if id !in table {
        return NotFound(NotFoundMessage);
      }
      RemoveKeepsConsistent(hasher, rows, secrets, id);
      table := table - {id};
      rows := rows - {id};
      secrets := secrets - {id};
      forall k | k in table ensures table[k].Data() == rows[k] {
        assert table[k] == old(table[k]);
      }
      status := NoContent;
    }
  }

  /** Once a user is deleted, reading, updating or deleting it again answers 404. */
  method DeleteThenAccess(c: UsersController, id: Guid, body: User, salt: Salt)
      returns (deleted: Status, fetched: Status, updated: Status, deletedAgain: Status)
    requires c.Valid() && id in c.table
    requires body !in c.table.Values && body.id == id
    modifies c, c.table.Values
    ensures deleted == NoContent
    ensures fetched == NotFound(NotFoundMessage)
    ensures updated == NotFound(NotFoundMessage)
    ensures deletedAgain == NotFound(NotFoundMessage)
  {
    deleted := c.DeleteUser(id);
    var user;
    fetched, user := c.GetUser(id);
    updated := c.UpdateUser(id, body, salt);
    deletedAgain := c.DeleteUser(id);
  }

  /** A user created without an Id is found under the generated key, with the
      submitted Nome, Login and Funcao and a password hash that the submitted
      password verifies against. */
  method CreateThenGet(c: UsersController, body: User, generated: Guid, salt: Salt)
      returns (created: Status, fetched: Status, user: User?)
    requires c.Valid() && body !in c.table.Values && body.id == EmptyGuid
    requires generated != EmptyGuid && generated !in c.table
    modifies c, body
    ensures created == Created(generated) && fetched == Ok && user == body
    ensures generated in c.table && c.table[generated] == user
    ensures user.Data() == old(body.Data()).(id := generated, password := user.password)
    ensures user.VerifyPassword(c.hasher, old(body.password))
  {
    created := c.CreateUser(body, generated, salt);
    fetched, user := c.GetUser(generated);
  }
}
